=== FILE: README.md ===
# AI Lawyers Battle Royale: the turn dispatcher, in Dafny

This project models the core of a simulated courtroom hearing. A court, the
plaintiff's counsel and a defendant take turns, and each turn is text from a
language model. The hearing's whole state is an append-only log of
`{role, content}` messages. The roles are `"court"`, `"counsel"` and `"user"`;
`"user"` is the defendant. The court steers the hearing by ending its own
message with a control marker:

- `[PC]`: counsel speaks next.
- `[DC]`: the defendant speaks next. This is automatic only on autopilot. Otherwise the dispatcher waits for a human.
- `[END]`: the hearing is closed. A costs ruling is generated, and the chain stops.

A message from counsel or the defendant is always answered by the court.

The model is functional. The log is an immutable `seq<Message>`. The model
has no access to the language model, so it gets the model's answers from an
oracle: a `seq<string>` of response texts, used one per call. If a call finds
the oracle empty, that call has failed.

## Modules

- `wrappers.dfy` (`Wrappers`): `Option` and `Result`.
- `messages.dfy` (`Messages`): roles, messages, and the three markers.
  - The marker tests are written as the source writes them: a Python tail slice `content[-4:]` or `content[-5:]` compared with the marker (`TailSlice`, `IsPC`, `IsDC`, `IsEnd`).
  - Each one's contract says it fires exactly when the content ends with its marker (`HasSuffix`).
  - They are proved mutually exclusive.
- `scenarios.dfy` (`Scenarios`): the `Scenario` record and `GetScenario`.
  - `GetScenario` looks up by integer position or by title.
  - A position uses Python indexing: a negative position counts from the end.
  - A title lookup returns the first scenario whose title matches.
  - An out-of-range position and an unknown title are distinct errors.
- `prompting.dfy` (`Prompting`): what each model call receives.
  - `Relabel` turns the log into chat turns from one speaker's point of view. The system turn is opaque: it is the chosen template plus the scenario.
  - `Recover` reads the turns back, which proves that relabeling loses nothing.
  - `CostsInput` splits the log into the costs ruling's transcript and decision. `Transcript` is the accumulating loop; `Concat` is the reference concatenation it is proved equal to.
- `conductor.dfy` (`Conductor`): the dispatcher.
  - `PhaseOf` decodes the last message into a phase. `Next` and `Step` give the action for it: who speaks, and whether to run again.
  - `RequestFor` gives the prompt that action sends.
  - `Drive` is the dispatch loop driven by the oracle, under any dispatch rule. Its `fuel` bounds the number of dispatches and stands in for the interpreter's recursion limit. Its lemmas hold for every rule.
  - `Run` is `Drive` under the hearing's own rule (`Dispatch`). Its lemmas restate the `Drive` facts in terms of the dispatch table.
  - `RunNested` is the dispatcher written as the source writes it: three separate `if` blocks on the court's message and one block for any other speaker. The `[PC]`, `[DC]` and non-court blocks end with the recursive call. The `[END]` block appends the costs ruling and does not recurse. An exception ends the whole chain. `Fire` is one such block.
  - `RunNestedIsRun` proves that the nested form computes exactly the loop.
  - `Seed` is the opening log.
  - `ScriptPass` is one pass of the page script. The dispatcher runs on render. If that run returned and the chat box holds a non-empty submission, the text is appended as a `"user"` message and the dispatcher runs again.

Outcomes of a run:

- `Returned`: the chain ended normally.
- `ServiceError`: a model call failed. Messages appended earlier in the chain stay in the log, as they do in the source's session state.
- `OutOfFuel`: the recursion budget ran out.
- `EmptyLog`: the log was empty, so the source's `messages[-1]` raises.

## Model

| member | source | states |
|---|---|---|
| Messages.TailSlice | conductor.py:67 | `s[-n:]` has length min(n, \|s\|) and is the end of `s`; a string shorter than the slice comes back whole |
| Messages.TailSliceIsSuffixTest | conductor.py:67 | comparing the marker-length tail slice with a marker holds iff the content ends with that marker; a shorter string never matches |
| Messages.IsPC | conductor.py:67 | the `[PC]` test, a 4-character tail slice compared with the marker, fires exactly when the content ends with `[PC]` |
| Messages.IsDC | conductor.py:76 | the `[DC]` test, a 4-character tail slice compared with the marker, fires exactly when the content ends with `[DC]` |
| Messages.IsEnd | conductor.py:85 | the `[END]` test, a 5-character tail slice compared with the marker, fires exactly when the content ends with `[END]` |
| Messages.MarkersExclusive | conductor.py:66-92 | no content fires two markers, so at most one of the three court blocks runs |
| Messages.TrailingTextDisarms | conductor.py:67-85 | any character other than `]` after a marker (text, a space, punctuation) stops every marker from firing |
| Messages.SuffixesNest | conductor.py:67-85 | two suffixes of one string nest: the shorter is a suffix of the longer |
| Messages.SuffixFixesLast | conductor.py:67-85 | a string that ends with a marker ends with the marker's last character |
| Scenarios.GetScenario | prompts.py:36-43 | an integer key within -len..len-1 returns that position, counting from the end when negative; any other integer is an index error; a title returns the first scenario with exactly that title and fails iff none has it; a result is always an element of the list |
| Prompting.TemplateFor | conductor.py:104-109 | counsel gets the plaintiff template and the court the court template; only the remaining speaker, the defendant, gets the defendant template |
| Prompting.Tag | conductor.py:117-125 | each speaker's tag is four characters ending in a colon and a space, so it can be split off the content again |
| Prompting.TagsDistinct | conductor.py:117-125 | the three speakers get three different tags, so a tag names exactly one speaker |
| Prompting.Voice | conductor.py:114-125 | a message becomes an AI turn exactly when the viewpoint wrote it; either way the turn reads back to the same message, speaker and text |
| Prompting.History | conductor.py:113-125 | one turn per message, in order; each turn is the message as seen from the viewpoint |
| Prompting.Relabel | conductor.py:103-126 | the prompt has 1 + \|log\| turns; turn 0 is the viewpoint's template with the scenario; turn i+1 is `AI(content)` for the viewpoint's own message and otherwise `Human` with `CT: `, `PC: ` or `DC: ` (by the message's true role) before the content |
| Prompting.RelabelLossless | conductor.py:113-125 | reading a relabeled prompt back gives exactly the original log, so relabeling keeps every message's role, text and position |
| Prompting.HistoryLossless | conductor.py:113-125 | the relabeled history turns read back to the original messages |
| Prompting.ConcatAppend | conductor.py:48-49 | concatenating a log with one more message appends that message's content |
| Prompting.Transcript | conductor.py:47-49 | the accumulating `transcript +=` loop gives the in-order concatenation of the contents with no separator |
| Prompting.CostsInput | conductor.py:42-52 | an empty log has no last message and yields nothing; otherwise the decision is the last content, the transcript is the unseparated concatenation of all earlier contents (empty for a one-message log), and transcript followed by decision is the whole log's concatenation |
| Conductor.PhaseOfTable | conductor.py:64-92 | the phase is "court answers" iff counsel or the defendant spoke last; otherwise it is the phase of the one marker the court's content ends with, whatever order the tests come in |
| Conductor.NextByGuards | conductor.py:66-92 | on a court message at most one of the three block guards holds (the `[DC]` guard counting only on autopilot), and the action is that block's speaker, with recursion for `[PC]` and `[DC]` and none for `[END]`; when no guard holds the dispatcher waits |
| Conductor.StepTable | conductor.py:63-101 | the dispatch table: court + `[PC]` gives counsel the floor and runs again; court + `[DC]` gives the defendant the floor and runs again on autopilot, and waits otherwise; court + `[END]` has the court speak once without running again; any other last speaker has the court speak and run again; an empty log fails; a dispatch waits iff the court's message carries no marker that acts |
| Conductor.RequestFor | conductor.py:66-100 | exactly the speaking dispatches call the model; counsel, defendant and court replies are prompted with the log relabeled from the speaker's own view; the costs ruling is prompted with the unseparated transcript of all earlier contents and the last message as the decision |
| Conductor.DriveAppendsOracleResponses | conductor.py:73-100 | under any dispatch rule a run only appends: the old log stays a prefix and at most one message is added per dispatch; the appended texts followed by the unused responses are exactly the oracle, so each response is used once and in order |
| Conductor.DriveFollowsRule | conductor.py:66-101 | under any dispatch rule every appended message is spoken by the speaker the rule chose on the log as it stood just before |
| Conductor.DriveReturnsOnlyWhenSettled | conductor.py:66-101 | under any dispatch rule a run returns normally only when the rule has nothing due on the final log, or the last dispatch spoke without asking to run again |
| Conductor.DriveFailsOnlyWhen | conductor.py:63-101 | under any dispatch rule a model failure leaves a speaking dispatch with no response left; an exhausted budget means one message per dispatch; a missing last message is the rule's verdict on the final log |
| Conductor.ChosenIsAppended | conductor.py:64-66 | the hearing's rule reads only the last message, so a speaker it chose on a prefix is the one the table gives for the message before |
| Conductor.RunAppendsOracleResponses | conductor.py:73-100 | the hearing's dispatcher only appends, at most one message per dispatch; the appended texts followed by the unused responses are exactly the oracle, so each response is used once and in order |
| Conductor.RunFollowsTable | conductor.py:66-101 | every appended message is spoken by the speaker that the dispatch table chose for the message before it |
| Conductor.RunReturnsOnlyWhenSettled | conductor.py:66-101 | a run returns normally only when nothing is due on its final log, or right after the costs ruling (a non-recursing dispatch) |
| Conductor.RunFailsOnlyWhen | conductor.py:63-101 | a model failure leaves a pending dispatch with no response left; an exhausted budget means each dispatch appended one message |
| Conductor.RunEmptyLogOnlyFromEmpty | conductor.py:64 | the empty-log failure happens exactly when the run starts from an empty log |
| Conductor.BlocksCollapse | conductor.py:66-92 | three guarded blocks in a row, at most one of whose guards holds, act as just that block on a chain that has not failed: a block whose guard fails passes the chain on unchanged, and so does every block after a failure |
| Conductor.NestedFiresAtMostOneBlock | conductor.py:66-92 | of the source's three separate `if` blocks, only the one the dispatch table names fires; when none fires the log is returned as it was |
| Conductor.RunNestedIsRun | conductor.py:63-101 | the source's three separate blocks, with recursion in the middle and exceptions ending the chain, compute exactly the dispatch loop: same log, same unused responses, same outcome |
| Conductor.Seed | conductor.py:129-132 | a fresh hearing is one court message that ends in `[PC]` |
| Conductor.SeedOpensWithCounselThenCourt | conductor.py:129-132 | from a fresh hearing, counsel speaks first and the court answers; both are appended before any wait |
| Conductor.IdleRunIsNoOp | conductor.py:66-92 | when the court's message has no marker, or ends in `[DC]` without autopilot, a run leaves the log unchanged and uses no response |
| Conductor.EndAppendsOneRuling | conductor.py:85-92 | a court message ending in `[END]` gets exactly one more court message, the costs ruling, and the chain returns |
| Conductor.ScriptPass | main.py:43-49 | a pass of the page script only appends to the log |
| Conductor.UserMessageIsAnswered | main.py:46-49 | a `"user"` message appended to any log is answered first by the court, with the next response |
| Conductor.ScriptPassAnswersDefendant | main.py:43-49 | the render run's log is kept; an empty submission, or a render run that raised, leaves the pass as the render run left it; otherwise the submission comes only after the render run settled, that is when nothing is due or right after the costs ruling (whose own trailing marker is not acted on first); it stays in the log, the chain it starts never fails for want of a last message, and the court answers it first |
| Conductor.RulingMarkerNotActedOn | main.py:43-49 | for every log whose last message is a court `[END]` message and every costs ruling ending in `[PC]`: the render run appends the ruling and returns with counsel's turn still due, and a non-empty submission is appended after the ruling and answered by the court before counsel speaks |

## Notes on the source

- conductor.py:11-12 imports `plaintiff_template` and `defendant_template` from prompts.py. prompts.py defines neither; it defines `counsel_template` (prompts.py:48). As written, importing conductor.py fails. The model treats the three templates as opaque names, chosen per viewpoint as conductor.py:104-109 chooses them.
- The defendant's role string is `"user"`, not `"defendant"`. Both the relabeling fall-through (`DC: `) and the dispatcher's non-court branch apply to it.
- The source tests the three markers in three separate `if`s. After the `[PC]` block recurses, the later tests still run against the old last message. `RunNestedIsRun` shows that this equals a single dispatch table, because the markers exclude each other.
- The costs ruling's own text is never checked for markers before the chain returns (conductor.py:85-92 appends it without recursing). If the ruling ends in `[PC]` or `[DC]`, that hand-over is still pending when main.py:45-49 appends the defendant's submission, so the defendant speaks ahead of it. `RulingMarkerNotActedOn` proves this for every ruling that ends in `[PC]`.
- When a model call fails, the source does not roll back messages appended earlier in the same chain. The model keeps them too. Only the failing call appends nothing.

## Left out

- Streamlit UI and session globals: `add_message`, `StreamHandler`, sidebar, reset and `st.session_state` (conductor.py:15-39, main.py). The log is an explicit value instead. Each `run()` call of a script pass gets its own `fuel`, as each starts a fresh recursion.
- The language-model client (`ChatOpenAI`, model names, temperatures 0.6, 0.4 and 0.2, streaming). It is replaced by the oracle of response strings. Floating-point settings have no logical content here.
- Prompt template text and LangChain formatting (prompts.py:7-115, conductor.py:43-45 and 110-112). The system turn is the chosen template plus the scenario, with no rendering. The costs request carries the transcript and decision instead of rendered messages.
- `load_scenarios` (prompts.py:27-30) and the module-level list it fills (prompts.py:33) are CSV file I/O. The scenario list is a parameter.
- Scenarios.GetScenario: keys are integers or strings only. A Python `bool` key fails `type(key) == int` and is treated as a title that no scenario has; this is not modelled.
- Run: termination is not proved, because the source recurses for as long as the model keeps emitting markers. `fuel` bounds the number of dispatches and stands in for the interpreter's recursion limit. Exhausting it gives the `OutOfFuel` outcome, not an exception.
- The `Conductor` constructor seeds the log only when the session has none (conductor.py:58-59). The model starts from `Seed()` or from a given log.
- Coaching-feedback variants and the coaching flags do not appear in this source.

=== FILE: conductor.dfy ===
/**
 The turn dispatcher. The hearing's state is the last message of the log: a
 court message ending in "[PC]", "[DC]" or "[END]" hands the floor to counsel,
 to the defendant (only on autopilot) or to the costs ruling; any other
 speaker's message is answered by the court. The language model is an oracle:
 a sequence of response texts consumed one per call.
 */
module Conductor {
  import opened Wrappers
  import opened Messages
  import opened Scenarios
  import opened Prompting

  /** The hearing's state as decoded from the last message. */
  datatype Phase =
    | AwaitingCounsel    // court, ending in "[PC]"
    | AwaitingDefendant  // court, ending in "[DC]"
    | Concluding         // court, ending in "[END]"
    | Quiet              // court, no marker
    | AwaitingCourt      // counsel or defendant spoke last

  /** What one dispatch does next. */
  datatype Action =
    | NoLastMessage                     // empty log: the lookup of the last message fails
    | Idle                              // nothing to do until someone appends
    | Speak(speaker: Role, recurse: bool)

  function Last(log: seq<Message>): Message
    requires |log| > 0
  {
    log[|log| - 1]
  }

  /** Decodes the state from the last message, testing the markers in the
      order the source does. */
  function PhaseOf(last: Message): Phase {
    if last.role != Court then AwaitingCourt
    else if IsPC(last.content) then AwaitingCounsel
    else if IsDC(last.content) then AwaitingDefendant
    else if IsEnd(last.content) then Concluding
    else Quiet
  }

  /** The decoded state agrees with the plain reading of the message: the
      if-chain over the three marker tests picks the one marker the content
      ends with, whatever order the tests come in. */
  lemma PhaseOfTable(last: Message)
    ensures PhaseOf(last) == AwaitingCourt <==> last.role != Court
    ensures PhaseOf(last) == AwaitingCounsel <==> last.role == Court && HasSuffix(last.content, PcMarker)
    ensures PhaseOf(last) == AwaitingDefendant <==> last.role == Court && HasSuffix(last.content, DcMarker)
    ensures PhaseOf(last) == Concluding <==> last.role == Court && HasSuffix(last.content, EndMarker)
  {
    MarkersExclusive(last.content);
  }

  /** What the dispatcher does when `last` is the last message. */
  function Next(last: Message, autopilot: bool): Action {
    match PhaseOf(last)
    case AwaitingCounsel => Speak(Counsel, true)
    case AwaitingDefendant => if autopilot then Speak(User, true) else Idle
    case Concluding => Speak(Court, false)
    case Quiet => Idle
    case AwaitingCourt => Speak(Court, true)
  }

  /** One dispatch: who speaks next and whether the dispatcher runs again
      afterwards. */
  function Step(log: seq<Message>, autopilot: bool): Action {
    if |log| == 0 then NoLastMessage else Next(Last(log), autopilot)
  }

  /** The dispatch table, in terms of the last message's speaker and the
      marker its content ends with. */
  lemma StepTable(log: seq<Message>, autopilot: bool)
    ensures Step(log, autopilot) == NoLastMessage <==> |log| == 0
    ensures |log| > 0 && Last(log).role != Court ==> Step(log, autopilot) == Speak(Court, true)
    ensures |log| > 0 && Last(log).role == Court && HasSuffix(Last(log).content, PcMarker) ==>
      Step(log, autopilot) == Speak(Counsel, true)
    ensures |log| > 0 && Last(log).role == Court && HasSuffix(Last(log).content, DcMarker) ==>
      Step(log, autopilot) == if autopilot then Speak(User, true) else Idle
    ensures |log| > 0 && Last(log).role == Court && HasSuffix(Last(log).content, EndMarker) ==>
      Step(log, autopilot) == Speak(Court, false)
    ensures Step(log, autopilot) == Idle <==>
      |log| > 0 && Last(log).role == Court
      && !HasSuffix(Last(log).content, PcMarker)
      && !HasSuffix(Last(log).content, EndMarker)
      && !(HasSuffix(Last(log).content, DcMarker) && autopilot)
  {
    if |log| > 0 {
      PhaseOfTable(Last(log));
    }
  }

  /** What the model is asked when a dispatch speaks. */
  datatype Request = Chat(turns: seq<Turn>) | Costs(prompt: CostsPrompt)

  /** The prompt of a speaking dispatch: the costs ruling gets the
      transcript and decision; every other speaker gets the log relabeled
      from its own point of view. */
  function RequestFor(log: seq<Message>, autopilot: bool, scenario: Scenario): (q: Option<Request>)
    ensures q.Some? <==> Step(log, autopilot).Speak?
    ensures q.Some? && Step(log, autopilot).recurse ==>
      q.value == Chat(Relabel(scenario, log, Step(log, autopilot).speaker))
    ensures q.Some? && !Step(log, autopilot).recurse ==>
      q.value == Costs(CostsPrompt(Concat(log[..|log| - 1]), Last(log).content))
  {
    match Step(log, autopilot)
    case Speak(speaker, recurse) =>
      if recurse then Some(Chat(Relabel(scenario, log, speaker))) else Some(Costs(CostsInput(log).value))
    case _ => None
  }

  /** How a dispatch chain ended: it returned, a model call failed (the
      oracle had no response left), the recursion budget ran out, or the log
      was empty. */
  datatype Outcome = Returned | ServiceError | OutOfFuel | EmptyLog

  /** The log after a chain, the unused oracle responses, and how it ended. */
  datatype RunResult = RunResult(log: seq<Message>, rest: seq<string>, outcome: Outcome)

  /** The texts of a run of messages, in order. */
  function Contents(msgs: seq<Message>): (r: seq<string>)
    ensures |r| == |msgs|
  {
    seq(|msgs|, i requires 0 <= i < |msgs| => msgs[i].content)
  }

  lemma ContentsAppend(a: seq<Message>, b: seq<Message>)
    ensures Contents(a + b) == Contents(a) + Contents(b)
  {
  }

  /** A dispatch rule: the action taken when the log is as given. */
  type Rule = seq<Message> -> Action

  /** The hearing's own rule, with the autopilot setting fixed. */
  function Dispatch(autopilot: bool): Rule {
    log => Step(log, autopilot)
  }

  /** The dispatch loop under any rule: each dispatch that speaks appends
      the next oracle response under the chosen speaker and, unless it asked
      not to, dispatches again. `fuel` bounds the number of dispatches,
      standing in for the interpreter's recursion limit. */
  function Drive(step: Rule, log: seq<Message>, oracle: seq<string>, fuel: nat): RunResult
    decreases fuel
  {
    if fuel == 0 then RunResult(log, oracle, OutOfFuel)
    else
      match step(log)
      case NoLastMessage => RunResult(log, oracle, EmptyLog)
      case Idle => RunResult(log, oracle, Returned)
      case Speak(speaker, recurse) =>
        if |oracle| == 0 then RunResult(log, oracle, ServiceError)
        else
          var next := log + [Message(speaker, oracle[0])];
          if recurse then Drive(step, next, oracle[1..], fuel - 1)
          else RunResult(next, oracle[1..], Returned)
  }

  /** The dispatcher run to completion from the given log. */
  function Run(log: seq<Message>, autopilot: bool, oracle: seq<string>, fuel: nat): RunResult {
    Drive(Dispatch(autopilot), log, oracle, fuel)
  }

  /** Under any rule a run only appends: the old log stays a prefix, at most
      one message is added per dispatch, and the appended texts followed by
      the unused responses are exactly the oracle, so each response is used
      once and in order. */
  lemma {:induction false} DriveAppendsOracleResponses(step: Rule, log: seq<Message>, oracle: seq<string>, fuel: nat)
    ensures log <= Drive(step, log, oracle, fuel).log
    ensures |Drive(step, log, oracle, fuel).log| <= |log| + fuel
    ensures Contents(Drive(step, log, oracle, fuel).log[|log|..]) + Drive(step, log, oracle, fuel).rest == oracle
    decreases fuel
  {
    if fuel > 0 && step(log).Speak? && |oracle| > 0 {
      var m := Message(step(log).speaker, oracle[0]);
      var next := log + [m];
      if step(log).recurse {
        DriveAppendsOracleResponses(step, next, oracle[1..], fuel - 1);
        var r := Drive(step, next, oracle[1..], fuel - 1);
        assert Drive(step, log, oracle, fuel) == r;
        AppendedSplit(log, m, r.log);
        assert oracle == [oracle[0]] + oracle[1..];
      } else {
        assert next[|log|..] == [m];
      }
    }
  }

  /** The texts appended after `log` begin with the first appended message. */
  lemma AppendedSplit(log: seq<Message>, m: Message, t: seq<Message>)
    requires log + [m] <= t
    ensures Contents(t[|log|..]) == [m.content] + Contents(t[|log| + 1..])
  {
    assert t[|log|..] == [m] + t[|log| + 1..];
    ContentsAppend([m], t[|log| + 1..]);
  }

  /** One dispatch of a run on a non-empty log, spelled out through the
      dispatch table's action. */
  lemma RunOneDispatch(log: seq<Message>, autopilot: bool, oracle: seq<string>, fuel: nat)
    requires 0 < fuel && 0 < |log|
    ensures var a := Step(log, autopilot);
      Run(log, autopilot, oracle, fuel) ==
        if !a.Speak? then RunResult(log, oracle, Returned)
        else if |oracle| == 0 then RunResult(log, oracle, ServiceError)
        else if a.recurse then Run(log + [Message(a.speaker, oracle[0])], autopilot, oracle[1..], fuel - 1)
        else RunResult(log + [Message(a.speaker, oracle[0])], oracle[1..], Returned)
  {
    StepTable(log, autopilot);
    assert Dispatch(autopilot)(log) == Step(log, autopilot);
  }

  /** Message i of the log was appended by the dispatch that ran on the
      log's first i messages. */
  predicate ChosenBy(step: Rule, log: seq<Message>, i: nat)
    requires i < |log|
  {
    step(log[..i]).Speak? && step(log[..i]).speaker == log[i].role
  }

  /** Under any rule, every appended message is spoken by the speaker the
      rule chose on the log as it stood just before. */
  lemma {:induction false} DriveFollowsRule(step: Rule, log: seq<Message>, oracle: seq<string>, fuel: nat)
    ensures log <= Drive(step, log, oracle, fuel).log
    ensures forall i {:trigger ChosenBy(step, Drive(step, log, oracle, fuel).log, i)} ::
      |log| <= i < |Drive(step, log, oracle, fuel).log| ==> ChosenBy(step, Drive(step, log, oracle, fuel).log, i)
    decreases fuel
  {
    if fuel > 0 && step(log).Speak? && |oracle| > 0 {
      var m := Message(step(log).speaker, oracle[0]);
      var next := log + [m];
      if step(log).recurse {
        DriveFollowsRule(step, next, oracle[1..], fuel - 1);
        var r := Drive(step, next, oracle[1..], fuel - 1);
        forall i | |log| <= i < |r.log|
          ensures ChosenBy(step, r.log, i)
        {
          if i == |log| {
            assert r.log[..i] == log && r.log[i] == m;
          }
        }
      } else {
        assert next[..|log|] == log;
      }
    }
  }

  /** Under any rule a chain that returned did so because the rule has
      nothing due on the final log, or because the last dispatch spoke
      without asking to run again. */
  predicate SettledUnder(step: Rule, log: seq<Message>, r: RunResult) {
    step(r.log) == Idle
    || (|log| < |r.log| && step(r.log[..|r.log| - 1]) == Speak(r.log[|r.log| - 1].role, false))
  }

  lemma {:induction false} DriveReturnsOnlyWhenSettled(step: Rule, log: seq<Message>, oracle: seq<string>, fuel: nat)
    ensures Drive(step, log, oracle, fuel).outcome == Returned ==>
      SettledUnder(step, log, Drive(step, log, oracle, fuel))
    decreases fuel
  {
    if fuel > 0 && step(log).Speak? && |oracle| > 0 {
      var next := log + [Message(step(log).speaker, oracle[0])];
      if step(log).recurse {
        DriveReturnsOnlyWhenSettled(step, next, oracle[1..], fuel - 1);
      } else {
        assert next[..|next| - 1] == log;
      }
    }
  }

  /** Under any rule a model failure leaves a dispatch that wanted to speak
      with no response left, an exhausted budget means every dispatch
      appended one message, and a missing last message is the rule's
      verdict on the final log. */
  lemma {:induction false} DriveFailsOnlyWhen(step: Rule, log: seq<Message>, oracle: seq<string>, fuel: nat)
    ensures var r := Drive(step, log, oracle, fuel);
      r.outcome == ServiceError ==> r.rest == [] && step(r.log).Speak?
    ensures var r := Drive(step, log, oracle, fuel);
      r.outcome == OutOfFuel ==> |r.log| == |log| + fuel
    ensures var r := Drive(step, log, oracle, fuel);
      r.outcome == EmptyLog ==> step(r.log) == NoLastMessage
    decreases fuel
  {
    if fuel > 0 && step(log).Speak? && |oracle| > 0 && step(log).recurse {
      DriveFailsOnlyWhen(step, log + [Message(step(log).speaker, oracle[0])], oracle[1..], fuel - 1);
    }
  }

  /** A run only appends, one message per dispatch, and consumes the oracle
      in order. */
  lemma RunAppendsOracleResponses(log: seq<Message>, autopilot: bool, oracle: seq<string>, fuel: nat)
    ensures log <= Run(log, autopilot, oracle, fuel).log
    ensures |Run(log, autopilot, oracle, fuel).log| <= |log| + fuel
    ensures Contents(Run(log, autopilot, oracle, fuel).log[|log|..]) + Run(log, autopilot, oracle, fuel).rest == oracle
  {
    DriveAppendsOracleResponses(Dispatch(autopilot), log, oracle, fuel);
  }

  /** Message i of the log was appended by the dispatch that ran when the
      message before it was the last one. This is `ChosenBy` for the
      hearing's rule, restated through `Next` so that proofs about the
      hearing need not unfold the rule on every prefix. */
  predicate AppendedByStep(log: seq<Message>, i: nat, autopilot: bool)
    requires i < |log|
  {
    0 < i && Next(log[i - 1], autopilot).Speak? && Next(log[i - 1], autopilot).speaker == log[i].role
  }

  /** Every message a run appends is spoken by the speaker the dispatch
      table chose when the message before it was the last one. */
  lemma RunFollowsTable(log: seq<Message>, autopilot: bool, oracle: seq<string>, fuel: nat)
    ensures log <= Run(log, autopilot, oracle, fuel).log
    ensures forall i {:trigger AppendedByStep(Run(log, autopilot, oracle, fuel).log, i, autopilot)} ::
      |log| <= i < |Run(log, autopilot, oracle, fuel).log| ==> AppendedByStep(Run(log, autopilot, oracle, fuel).log, i, autopilot)
  {
    var step := Dispatch(autopilot);
    DriveFollowsRule(step, log, oracle, fuel);
    var r := Run(log, autopilot, oracle, fuel);
    forall i | |log| <= i < |r.log|
      ensures AppendedByStep(r.log, i, autopilot)
    {
      ChosenIsAppended(r.log, i, autopilot);
    }
  }

  /** The hearing's rule looks only at the last message, so a message it
      chose was chosen by the dispatch on the message before. */
  lemma ChosenIsAppended(log: seq<Message>, i: nat, autopilot: bool)
    requires i < |log| && ChosenBy(Dispatch(autopilot), log, i)
    ensures AppendedByStep(log, i, autopilot)
  {
    var p := log[..i];
    assert Step(p, autopilot).Speak?;
    assert Last(p) == log[i - 1];
  }

  /** A chain that returned did so because nothing is due on its final log,
      or right after the costs ruling: the dispatch on the message before
      the last one spoke without asking to run again. This is `SettledUnder`
      for the hearing's rule, restated through `Next` for the same reason as
      `AppendedByStep`. */
  predicate Settled(log: seq<Message>, autopilot: bool, r: RunResult) {
    Step(r.log, autopilot) == Idle
    || (0 < |log| < |r.log| && Next(r.log[|r.log| - 2], autopilot) == Speak(Last(r.log).role, false))
  }

  /** A run returns normally only once it has settled. */
  lemma RunReturnsOnlyWhenSettled(log: seq<Message>, autopilot: bool, oracle: seq<string>, fuel: nat)
    ensures Run(log, autopilot, oracle, fuel).outcome == Returned ==>
      Settled(log, autopilot, Run(log, autopilot, oracle, fuel))
  {
    var step := Dispatch(autopilot);
    var r := Run(log, autopilot, oracle, fuel);
    if |log| == 0 {
      assert step(log) == NoLastMessage;
      assert r.outcome != Returned;
    } else {
      DriveReturnsOnlyWhenSettled(step, log, oracle, fuel);
      if r.outcome == Returned {
        SettledUnderHearingRule(log, autopilot, r);
      }
    }
  }

  /** Settling under the hearing's rule, restated through `Next`: the rule
      on a prefix reads only that prefix's last message. */
  lemma SettledUnderHearingRule(log: seq<Message>, autopilot: bool, r: RunResult)
    requires 0 < |log| && SettledUnder(Dispatch(autopilot), log, r)
    ensures Settled(log, autopilot, r)
  {
    if Dispatch(autopilot)(r.log) == Idle {
      SettledWhenIdle(log, autopilot, r);
    } else {
      SettledAfterRuling(log, autopilot, r);
    }
  }

  /** Nothing due under the hearing's rule is nothing due in the table. */
  lemma SettledWhenIdle(log: seq<Message>, autopilot: bool, r: RunResult)
    requires Dispatch(autopilot)(r.log) == Idle
    ensures Settled(log, autopilot, r)
  {
    assert Dispatch(autopilot)(r.log) == Step(r.log, autopilot);
  }

  /** A last dispatch that spoke without running again is, in the table,
      the message before the last handing over to the last speaker. */
  lemma SettledAfterRuling(log: seq<Message>, autopilot: bool, r: RunResult)
    requires 0 < |log| < |r.log|
    requires Dispatch(autopilot)(r.log[..|r.log| - 1]) == Speak(r.log[|r.log| - 1].role, false)
    ensures Settled(log, autopilot, r)
  {
    var p := r.log[..|r.log| - 1];
    assert Dispatch(autopilot)(p) == Step(p, autopilot);
    assert Last(p) == r.log[|r.log| - 2];
    assert Last(r.log) == r.log[|r.log| - 1];
  }






  /** How a run fails: a model failure leaves a dispatch that wanted to speak
      with no response left, and an exhausted budget means every dispatch
      appended one message. */
  lemma RunFailsOnlyWhen(log: seq<Message>, autopilot: bool, oracle: seq<string>, fuel: nat)
    ensures var r := Run(log, autopilot, oracle, fuel);
      r.outcome == ServiceError ==> r.rest == [] && Step(r.log, autopilot).Speak?
    ensures var r := Run(log, autopilot, oracle, fuel);
      r.outcome == OutOfFuel ==> |r.log| == |log| + fuel
  {
    DriveFailsOnlyWhen(Dispatch(autopilot), log, oracle, fuel);
  }

  /** Only an empty log fails for want of a last message. */
  lemma RunEmptyLogOnlyFromEmpty(log: seq<Message>, autopilot: bool, oracle: seq<string>, fuel: nat)
    ensures Run(log, autopilot, oracle, fuel).outcome == EmptyLog <==> log == [] && fuel > 0
  {
    var step := Dispatch(autopilot);
    var r := Run(log, autopilot, oracle, fuel);
    DriveFailsOnlyWhen(step, log, oracle, fuel);
    DriveAppendsOracleResponses(step, log, oracle, fuel);
    if r.outcome == EmptyLog {
      assert Step(r.log, autopilot) == NoLastMessage;
    }
    if log == [] && fuel > 0 {
      assert step(log) == NoLastMessage;
    }
  }

  /** The dispatcher as the source writes it: three separate marker tests on
      the court's message, each of which may append and recurse, an exception
      from a model call or the recursion limit ending the whole chain. */
  function RunNested(log: seq<Message>, autopilot: bool, oracle: seq<string>, fuel: nat): RunResult
    decreases fuel, 1
  {
    if fuel == 0 then RunResult(log, oracle, OutOfFuel)
    else if |log| == 0 then RunResult(log, oracle, EmptyLog)
    else
      var last := Last(log);
      var start := RunResult(log, oracle, Returned);
      if last.role == Court then
        var afterPC := Fire(start, IsPC(last.content), Counsel, true, autopilot, fuel);
        var afterDC := Fire(afterPC, IsDC(last.content) && autopilot, User, true, autopilot, fuel);
        Fire(afterDC, IsEnd(last.content), Court, false, autopilot, fuel)
      else
        Fire(start, true, Court, true, autopilot, fuel)
  }

  /** One guarded block of the source's dispatcher: when the chain so far
      has not failed and the guard holds, ask the model, append its answer
      under `speaker` and, for every block but the costs ruling, run the
      dispatcher again. */
  function Fire(s: RunResult, guard: bool, speaker: Role, recurse: bool, autopilot: bool, fuel: nat): RunResult
    requires 0 < fuel
    decreases fuel, 0
  {
    if s.outcome != Returned || !guard then s
    else if |s.rest| == 0 then RunResult(s.log, s.rest, ServiceError)
    else
      var next := s.log + [Message(speaker, s.rest[0])];
      if recurse then RunNested(next, autopilot, s.rest[1..], fuel - 1)
      else RunResult(next, s.rest[1..], Returned)
  }

  /** The three separate tests behave as one dispatch table: since no
      message carries two markers, the source's nested recursion computes
      exactly the dispatch loop. */
  lemma {:induction false} RunNestedIsRun(log: seq<Message>, autopilot: bool, oracle: seq<string>, fuel: nat)
    ensures RunNested(log, autopilot, oracle, fuel) == Run(log, autopilot, oracle, fuel)
    decreases fuel
  {
    if fuel > 0 && |log| > 0 {
      var a := Step(log, autopilot);
      var start := RunResult(log, oracle, Returned);
      NestedFiresAtMostOneBlock(log, autopilot, oracle, fuel);
      RunOneDispatch(log, autopilot, oracle, fuel);
      if a.Speak? && |oracle| > 0 && a.recurse {
        var next := log + [Message(a.speaker, oracle[0])];
        RunNestedIsRun(next, autopilot, oracle[1..], fuel - 1);
        assert Fire(start, true, a.speaker, true, autopilot, fuel) == RunNested(next, autopilot, oracle[1..], fuel - 1);
      }
    } else if fuel > 0 {
      assert Dispatch(autopilot)(log) == NoLastMessage;
    }
  }

  /** Of the source's three guarded blocks at most one fires, and it is the
      one the dispatch table names; when none fires the chain returns as it
      found it. */
  lemma NestedFiresAtMostOneBlock(log: seq<Message>, autopilot: bool, oracle: seq<string>, fuel: nat)
    requires 0 < fuel && 0 < |log|
    ensures var start := RunResult(log, oracle, Returned);
      var a := Step(log, autopilot);
      RunNested(log, autopilot, oracle, fuel)
      == if a.Speak? then Fire(start, true, a.speaker, a.recurse, autopilot, fuel) else start
  {
    var c := Last(log).content;
    var start := RunResult(log, oracle, Returned);
    if Last(log).role == Court {
      var pc, dc, end := IsPC(c), IsDC(c) && autopilot, IsEnd(c);
      NextByGuards(Last(log), autopilot);
      assert RunNested(log, autopilot, oracle, fuel)
        == Fire(Fire(Fire(start, pc, Counsel, true, autopilot, fuel), dc, User, true, autopilot, fuel), end, Court, false, autopilot, fuel);
      BlocksCollapse(start, pc, dc, end, autopilot, fuel);
    }
  }

  /** The action on a court message, read off the three guards of the
      source's blocks: at most one holds, and it names the speaker. */
  lemma NextByGuards(last: Message, autopilot: bool)
    requires last.role == Court
    ensures var c := last.content;
      !(IsPC(c) && IsDC(c)) && !(IsPC(c) && IsEnd(c)) && !(IsDC(c) && IsEnd(c))
    ensures var c := last.content;
      Next(last, autopilot)
        == if IsPC(c) then Speak(Counsel, true) else if IsDC(c) && autopilot then Speak(User, true)
           else if IsEnd(c) then Speak(Court, false) else Idle
  {
    MarkersExclusive(last.content);
  }

  /** Three blocks in a row, at most one of whose guards holds, fire just
      that one block on a chain that has not failed. */
  lemma BlocksCollapse(s: RunResult, pc: bool, dc: bool, end: bool, autopilot: bool, fuel: nat)
    requires 0 < fuel && s.outcome == Returned
    requires !(pc && dc) && !(pc && end) && !(dc && end)
    ensures Fire(Fire(Fire(s, pc, Counsel, true, autopilot, fuel), dc, User, true, autopilot, fuel), end, Court, false, autopilot, fuel)
      == if pc then Fire(s, true, Counsel, true, autopilot, fuel)
         else if dc then Fire(s, true, User, true, autopilot, fuel)
         else if end then Fire(s, true, Court, false, autopilot, fuel)
         else s
  {
    var afterPC := Fire(s, pc, Counsel, true, autopilot, fuel);
    if pc {
      assert Fire(afterPC, false, User, true, autopilot, fuel) == afterPC;
    }
  }

  /** The opening statement that seeds every hearing. */
  const Opening: string := "Plaintiff's counsel, you may now begin. [PC]"

  /** A fresh hearing: one court message that hands the floor to counsel. */
  function Seed(): (log: seq<Message>)
    ensures |log| == 1 && log[0].role == Court && HasSuffix(log[0].content, PcMarker)
  {
    assert Opening[|Opening| - 4..] == PcMarker;
    [Message(Court, Opening)]
  }

  /** From a fresh hearing the first dispatch gives counsel the floor and
      the court answers counsel: two messages before any wait. */
  lemma SeedOpensWithCounselThenCourt(autopilot: bool, oracle: seq<string>, fuel: nat)
    requires 2 <= fuel && 2 <= |oracle|
    ensures Step(Seed(), autopilot) == Speak(Counsel, true)
    ensures var r := Run(Seed(), autopilot, oracle, fuel);
      3 <= |r.log| && r.log[..3] == Seed() + [Message(Counsel, oracle[0]), Message(Court, oracle[1])]
  {
    StepTable(Seed(), autopilot);
    var log1 := Seed() + [Message(Counsel, oracle[0])];
    var log2 := log1 + [Message(Court, oracle[1])];
    assert Run(Seed(), autopilot, oracle, fuel) == Run(log1, autopilot, oracle[1..], fuel - 1);
    assert Run(log1, autopilot, oracle[1..], fuel - 1) == Run(log2, autopilot, oracle[2..], fuel - 2);
    RunFollowsTable(log2, autopilot, oracle[2..], fuel - 2);
    var r := Run(log2, autopilot, oracle[2..], fuel - 2);
    assert r.log[..3] == log2;
  }

  /** When nothing is due (the court's message carries no marker, or it
      awaits a defendant who is not simulated) a run changes nothing and asks
      the model nothing. */
  lemma IdleRunIsNoOp(log: seq<Message>, autopilot: bool, oracle: seq<string>, fuel: nat)
    requires 0 < fuel && |log| > 0 && Last(log).role == Court
    requires !HasSuffix(Last(log).content, PcMarker) && !HasSuffix(Last(log).content, EndMarker)
    requires !(HasSuffix(Last(log).content, DcMarker) && autopilot)
    ensures Run(log, autopilot, oracle, fuel) == RunResult(log, oracle, Returned)
  {
    StepTable(log, autopilot);
  }

  /** A court message ending in "[END]" yields exactly one more court
      message, the costs ruling, and the chain stops there. */
  lemma EndAppendsOneRuling(log: seq<Message>, autopilot: bool, oracle: seq<string>, fuel: nat)
    requires 0 < fuel && |log| > 0 && Last(log).role == Court && HasSuffix(Last(log).content, EndMarker)
    requires 0 < |oracle|
    ensures Run(log, autopilot, oracle, fuel)
      == RunResult(log + [Message(Court, oracle[0])], oracle[1..], Returned)
  {
    StepTable(log, autopilot);
  }

  /** One pass of the page script. The dispatcher runs on render; then, if
      that run returned and the chat box held a non-empty submission, the
      text is appended as a "user" message and the dispatcher runs again.
      The empty string stands for no submission, as both it and a missing
      input are falsy. A render run that raised stops the script, so the
      submission is never appended. */
  function ScriptPass(log: seq<Message>, prompt: string, autopilot: bool, oracle: seq<string>, fuel: nat): (r: RunResult)
    ensures log <= r.log
  {
    var shown := Run(log, autopilot, oracle, fuel);
    RunAppendsOracleResponses(log, autopilot, oracle, fuel);
    RunAppendsOracleResponses(shown.log + [Message(User, prompt)], autopilot, shown.rest, fuel);
    if shown.outcome != Returned || prompt == "" then shown
    else Run(shown.log + [Message(User, prompt)], autopilot, shown.rest, fuel)
  }

  /** A "user" message is answered by the court before anything else. */
  lemma UserMessageIsAnswered(log: seq<Message>, text: string, autopilot: bool, oracle: seq<string>, fuel: nat)
    requires 0 < fuel && 0 < |oracle|
    ensures log + [Message(User, text), Message(Court, oracle[0])]
      <= Run(log + [Message(User, text)], autopilot, oracle, fuel).log
  {
    var submitted := log + [Message(User, text)];
    StepTable(submitted, autopilot);
    RunOneDispatch(submitted, autopilot, oracle, fuel);
    RunAppendsOracleResponses(submitted + [Message(Court, oracle[0])], autopilot, oracle[1..], fuel - 1);
    assert submitted + [Message(Court, oracle[0])] == log + [Message(User, text), Message(Court, oracle[0])];
  }

  /** The defendant speaks only once the hearing has settled: a submission
      is appended only after the render run returned, that is when nothing
      is due, or right after the costs ruling (whose own trailing marker is
      not acted on first). It is kept in the log, the chain it starts never
      fails for want of a last message, and the court answers it first. An
      empty submission, or a render run that raised, leaves the pass as the
      render run left it. */
  lemma ScriptPassAnswersDefendant(log: seq<Message>, prompt: string, autopilot: bool, oracle: seq<string>, fuel: nat)
    ensures var shown := Run(log, autopilot, oracle, fuel);
      shown.log <= ScriptPass(log, prompt, autopilot, oracle, fuel).log
    ensures var shown := Run(log, autopilot, oracle, fuel);
      prompt == "" || shown.outcome != Returned ==> ScriptPass(log, prompt, autopilot, oracle, fuel) == shown
    ensures var shown := Run(log, autopilot, oracle, fuel);
      var r := ScriptPass(log, prompt, autopilot, oracle, fuel);
      prompt != "" && shown.outcome == Returned ==>
        Settled(log, autopilot, shown)
        && shown.log + [Message(User, prompt)] <= r.log
        && r.outcome != EmptyLog
    ensures var shown := Run(log, autopilot, oracle, fuel);
      var r := ScriptPass(log, prompt, autopilot, oracle, fuel);
      prompt != "" && shown.outcome == Returned && 0 < fuel && 0 < |shown.rest| ==>
        shown.log + [Message(User, prompt), Message(Court, shown.rest[0])] <= r.log
  {
    var shown := Run(log, autopilot, oracle, fuel);
    if prompt != "" && shown.outcome == Returned {
      RunReturnsOnlyWhenSettled(log, autopilot, oracle, fuel);
      var submitted := shown.log + [Message(User, prompt)];
      RunEmptyLogOnlyFromEmpty(submitted, autopilot, shown.rest, fuel);
      if 0 < fuel && 0 < |shown.rest| {
        UserMessageIsAnswered(shown.log, prompt, autopilot, shown.rest, fuel);
      }
    }
  }

  /** A costs ruling that itself ends in "[PC]" still counts as settled:
      the chain returns after the ruling with counsel's turn pending, and a
      non-empty submission is appended after the ruling and answered by the
      court before counsel speaks. */
  lemma RulingMarkerNotActedOn(log: seq<Message>, ruling: string, prompt: string, autopilot: bool, rest: seq<string>, fuel: nat)
    requires 0 < fuel && 0 < |log| && Last(log).role == Court && HasSuffix(Last(log).content, EndMarker)
    requires HasSuffix(ruling, PcMarker) && prompt != "" && 0 < |rest|
    ensures Run(log, autopilot, [ruling] + rest, fuel) == RunResult(log + [Message(Court, ruling)], rest, Returned)
    ensures Step(log + [Message(Court, ruling)], autopilot) == Speak(Counsel, true)
    ensures log + [Message(Court, ruling), Message(User, prompt), Message(Court, rest[0])]
      <= ScriptPass(log, prompt, autopilot, [ruling] + rest, fuel).log
  {
    var oracle := [ruling] + rest;
    assert oracle[0] == ruling && oracle[1..] == rest;
    EndAppendsOneRuling(log, autopilot, oracle, fuel);
    StepTable(log + [Message(Court, ruling)], autopilot);
    SubmissionFollowsRuling(log, ruling, prompt, autopilot, rest, fuel);
  }

  /** After the costs ruling, whatever its text, the render run returns, so
      a non-empty submission is appended after the ruling and the court
      answers it first. */
  lemma SubmissionFollowsRuling(log: seq<Message>, ruling: string, prompt: string, autopilot: bool, rest: seq<string>, fuel: nat)
    requires 0 < fuel && 0 < |log| && Last(log).role == Court && HasSuffix(Last(log).content, EndMarker)
    requires prompt != "" && 0 < |rest|
    ensures log + [Message(Court, ruling), Message(User, prompt), Message(Court, rest[0])]
      <= ScriptPass(log, prompt, autopilot, [ruling] + rest, fuel).log
  {
    var oracle := [ruling] + rest;
    var ruled := log + [Message(Court, ruling)];
    assert oracle[0] == ruling && oracle[1..] == rest;
    EndAppendsOneRuling(log, autopilot, oracle, fuel);
    assert ScriptPass(log, prompt, autopilot, oracle, fuel)
      == Run(ruled + [Message(User, prompt)], autopilot, rest, fuel);
    UserMessageIsAnswered(ruled, prompt, autopilot, rest, fuel);
    assert ruled + [Message(User, prompt), Message(Court, rest[0])]
      == log + [Message(Court, ruling), Message(User, prompt), Message(Court, rest[0])];
  }


}

=== FILE: messages.dfy ===
/**
 Entries of the hearing's conversation log and the control markers that the
 court embeds at the end of its own messages to say who speaks next.
 */
module Messages {

  /** The three speakers, as the log spells them: "court", "counsel" and
      "user" (the defendant, whether human or simulated). */
  datatype Role = Court | Counsel | User

  /** One entry of the append-only conversation log. */
  datatype Message = Message(role: Role, content: string)

  /** Plaintiff's counsel must answer next. */
  const PcMarker: string := "[PC]"
  /** The defendant must answer next. */
  const DcMarker: string := "[DC]"
  /** The hearing is closed; a costs ruling follows. */
  const EndMarker: string := "[END]"

  /** The Python slice `s[-n:]` for a positive n: the last n characters of s,
      or the whole of s when it is shorter than n. */
  function TailSlice(s: string, n: nat): (r: string)
    requires 0 < n
    ensures |r| == if |s| < n then |s| else n
    ensures r == s[|s| - |r|..]
  {
    if |s| <= n then s else s[|s| - n..]
  }

  /** m occurs at the very end of s. */
  predicate HasSuffix(s: string, m: string) {
    |m| <= |s| && s[|s| - |m|..] == m
  }

  /** Comparing a tail slice of the marker's own length with the marker is
      exactly a trailing-substring test: a shorter string never matches. */
  lemma TailSliceIsSuffixTest(s: string, m: string)
    requires 0 < |m|
    ensures TailSlice(s, |m|) == m <==> HasSuffix(s, m)
  {
    if |s| < |m| {
      assert |TailSlice(s, |m|)| < |m|;
    }
  }

  /** The dispatcher's marker tests, written as the source writes them: a
      4-character tail slice for "[PC]" and "[DC]", a 5-character one for
      "[END]". Each fires exactly when the content ends with its marker. */
  function IsPC(s: string): (r: bool)
    ensures r <==> HasSuffix(s, PcMarker)
  {
    TailSliceIsSuffixTest(s, PcMarker);
    TailSlice(s, 4) == PcMarker
  }

  function IsDC(s: string): (r: bool)
    ensures r <==> HasSuffix(s, DcMarker)
  {
    TailSliceIsSuffixTest(s, DcMarker);
    TailSlice(s, 4) == DcMarker
  }

  function IsEnd(s: string): (r: bool)
    ensures r <==> HasSuffix(s, EndMarker)
  {
    TailSliceIsSuffixTest(s, EndMarker);
    TailSlice(s, 5) == EndMarker
  }

  /** Two suffixes of one string nest: the shorter is a suffix of the longer. */
  lemma SuffixesNest(s: string, a: string, b: string)
    requires |a| <= |b|
    ensures HasSuffix(s, a) && HasSuffix(s, b) ==> HasSuffix(b, a)
  {
    if HasSuffix(s, a) && HasSuffix(s, b) {
      forall k | 0 <= k < |a|
        ensures b[|b| - |a|..][k] == a[k]
      {
        assert b[|b| - |a| + k] == s[|s| - |a| + k];
      }
    }
  }

  /** No content string carries two markers at once. */
  lemma MarkersExclusive(s: string)
    ensures !(IsPC(s) && IsDC(s))
    ensures !(IsPC(s) && IsEnd(s))
    ensures !(IsDC(s) && IsEnd(s))
  {
    SuffixesNest(s, PcMarker, EndMarker);
    SuffixesNest(s, DcMarker, EndMarker);
    assert EndMarker[1..] == "END]";
  }

  /** A non-empty suffix fixes the last character. */
  lemma SuffixFixesLast(s: string, m: string)
    requires 0 < |m|
    ensures HasSuffix(s, m) ==> s[|s| - 1] == m[|m| - 1]
  {
    if HasSuffix(s, m) {
      assert s[|s| - |m|..][|m| - 1] == s[|s| - 1];
    }
  }

  /** Any character other than ']' typed after a marker disarms it: a marker
      followed by text, spaces or punctuation is not a marker. */
  lemma TrailingTextDisarms(s: string, c: char)
    requires c != ']'
    ensures !IsPC(s + [c]) && !IsDC(s + [c]) && !IsEnd(s + [c])
  {
    var t := s + [c];
    SuffixFixesLast(t, PcMarker);
    SuffixFixesLast(t, DcMarker);
    SuffixFixesLast(t, EndMarker);
  }
}

=== FILE: prompting.dfy ===
/**
 What each language-model call is given: the conversation relabeled from one
 speaker's point of view, or the transcript/decision pair of the costs ruling.
 */
module Prompting {
  import opened Wrappers
  import opened Messages
  import opened Scenarios

  /** The instruction templates; their text is opaque here. */
  datatype Template = PlaintiffTemplate | CourtTemplate | DefendantTemplate

  /** One turn handed to the chat model: the rendered instruction, a turn in
      the speaker's own voice, or a turn from someone else. */
  datatype Turn = System(template: Template, scenario: Scenario) | AI(text: string) | Human(text: string)

  /** The template chosen for a point of view; any viewpoint other than
      counsel and court gets the defendant's. */
  function TemplateFor(viewpoint: Role): (t: Template)
    ensures t == PlaintiffTemplate <==> viewpoint == Counsel
    ensures t == CourtTemplate <==> viewpoint == Court
  {
    match viewpoint
    case Counsel => PlaintiffTemplate
    case Court => CourtTemplate
    case User => DefendantTemplate
  }

  /** The prefix that names a message's true speaker to everyone else: a
      four-character tag ending in a colon and a space. */
  function Tag(role: Role): (r: string)
    ensures |r| == 4 && r[2..] == ": "
  {
    match role
    case Court => "CT: "
    case Counsel => "PC: "
    case User => "DC: "
  }

  /** Each speaker has its own tag, so a tag names one speaker. */
  lemma TagsDistinct(a: Role, b: Role)
    ensures Tag(a) == Tag(b) <==> a == b
  {
  }

  /** How one logged message reads from the given point of view: the
      speaker's own messages in its own voice, everyone else's tagged with
      their true speaker, so that the message can be read back. */
  function Voice(m: Message, viewpoint: Role): (t: Turn)
    ensures t.AI? <==> m.role == viewpoint
    ensures RecoverTurn(t, viewpoint) == Some(m)
  {
    if m.role == viewpoint then AI(m.content)
    else
      var text := Tag(m.role) + m.content;
      assert text[..4] == Tag(m.role) && text[4..] == m.content;
      Human(text)
  }

  /** The log relabeled message by message, appending as the source's loop does. */
  function History(msgs: seq<Message>, viewpoint: Role): (r: seq<Turn>)
    ensures |r| == |msgs|
    ensures forall i :: 0 <= i < |msgs| ==> r[i] == Voice(msgs[i], viewpoint)
  {
    if |msgs| == 0 then []
    else History(msgs[..|msgs| - 1], viewpoint) + [Voice(msgs[|msgs| - 1], viewpoint)]
  }

  /** The chat prompt for the speaker `viewpoint`: the instruction turn, then
      every logged message in order, the speaker's own as AI turns and all
      others as Human turns tagged with their true speaker. */
  function Relabel(scenario: Scenario, msgs: seq<Message>, viewpoint: Role): (r: seq<Turn>)
    ensures |r| == 1 + |msgs|
    ensures r[0] == System(TemplateFor(viewpoint), scenario)
    ensures forall i :: 0 <= i < |msgs| && msgs[i].role == viewpoint ==> r[i + 1] == AI(msgs[i].content)
    ensures forall i :: 0 <= i < |msgs| && msgs[i].role != viewpoint ==>
      r[i + 1] == Human(Tag(msgs[i].role) + msgs[i].content)
  {
    [System(TemplateFor(viewpoint), scenario)] + History(msgs, viewpoint)
  }

  /** Reads a history turn back as the message it was made from. */
  function RecoverTurn(t: Turn, viewpoint: Role): Option<Message> {
    match t
    case System(_, _) => None
    case AI(text) => Some(Message(viewpoint, text))
    case Human(text) =>
      if |text| < 4 then None
      else if text[..4] == Tag(Court) then Some(Message(Court, text[4..]))
      else if text[..4] == Tag(Counsel) then Some(Message(Counsel, text[4..]))
      else if text[..4] == Tag(User) then Some(Message(User, text[4..]))
      else None
  }

  /** Reads a whole history back, failing on the first unreadable turn. */
  function Recover(turns: seq<Turn>, viewpoint: Role): Option<seq<Message>> {
    if |turns| == 0 then Some([])
    else
      match RecoverTurn(turns[0], viewpoint)
      case None => None
      case Some(m) =>
        match Recover(turns[1..], viewpoint)
        case None => None
        case Some(ms) => Some([m] + ms)
  }

  /** Relabeling loses nothing: every message's speaker and text can be read
      back from any one speaker's prompt. */
  lemma {:induction false} RelabelLossless(scenario: Scenario, msgs: seq<Message>, viewpoint: Role)
    ensures Recover(Relabel(scenario, msgs, viewpoint)[1..], viewpoint) == Some(msgs)
  {
    assert Relabel(scenario, msgs, viewpoint)[1..] == History(msgs, viewpoint);
    HistoryLossless(msgs, viewpoint);
  }

  lemma {:induction false} HistoryLossless(msgs: seq<Message>, viewpoint: Role)
    ensures Recover(History(msgs, viewpoint), viewpoint) == Some(msgs)
    decreases |msgs|
  {
    if |msgs| > 0 {
      var h := History(msgs, viewpoint);
      assert h[1..] == History(msgs[1..], viewpoint);
      HistoryLossless(msgs[1..], viewpoint);
      assert [msgs[0]] + msgs[1..] == msgs;
    }
  }

  /** The inputs of the costs ruling. */
  datatype CostsPrompt = CostsPrompt(transcript: string, decision: string)

  /** The contents run together with no separator, accumulated left to right
      as the source's loop does; the result is the plain in-order
      concatenation. */
  function Transcript(msgs: seq<Message>): (r: string)
    ensures r == Concat(msgs)
    decreases |msgs|
  {
    if |msgs| == 0 then ""
    else
      var init := msgs[..|msgs| - 1];
      ConcatAppend(init, msgs[|msgs| - 1]);
      assert init + [msgs[|msgs| - 1]] == msgs;
      Transcript(init) + msgs[|msgs| - 1].content
  }

  /** Reference reading of a transcript: the first content, then the rest. */
  function Concat(msgs: seq<Message>): string {
    if |msgs| == 0 then "" else msgs[0].content + Concat(msgs[1..])
  }

  lemma {:induction false} ConcatAppend(msgs: seq<Message>, m: Message)
    ensures Concat(msgs + [m]) == Concat(msgs) + m.content
    decreases |msgs|
  {
    if |msgs| > 0 {
      assert (msgs + [m])[1..] == msgs[1..] + [m];
      ConcatAppend(msgs[1..], m);
    } else {
      assert Concat([m]) == m.content + Concat([]);
    }
  }

  /** The costs ruling's inputs: the last message is the decision and all
      earlier contents, in order and unseparated, are the transcript. An
      empty log has no last message and yields nothing. */
  function CostsInput(msgs: seq<Message>): (r: Option<CostsPrompt>)
    ensures r.Some? <==> |msgs| > 0
    ensures r.Some? ==> r.value.decision == msgs[|msgs| - 1].content
    ensures r.Some? ==> r.value.transcript == Concat(msgs[..|msgs| - 1])
    ensures |msgs| == 1 ==> r.value.transcript == ""
    ensures r.Some? ==> r.value.transcript + r.value.decision == Concat(msgs)
  {
    if |msgs| == 0 then None
    else
      var init := msgs[..|msgs| - 1];
      ConcatAppend(init, msgs[|msgs| - 1]);
      assert init + [msgs[|msgs| - 1]] == msgs;
      Some(CostsPrompt(Transcript(init), msgs[|msgs| - 1].content))
  }
}

=== FILE: scenarios.dfy ===
/** The legal-rule scenarios a hearing is run against, and their lookup. */
module Scenarios {
  import opened Wrappers

  /** One scenario row; only the secondary rule text may be absent. */
  datatype Scenario = Scenario(
    ruleTitle: string,
    ruleContent: string,
    ruleSecondary: Option<string>,
    caseBackground: string,
    application: string)

  /** A lookup key is either a list position or a rule title. */
  datatype Key = Index(i: int) | Title(title: string)

  /** Lookup failures: a position outside the list, or a title nobody has. */
  datatype LookupError = IndexOutOfRange | NoSuchTitle

  /** Looks a scenario up by position (Python indexing, so a negative
      position counts from the end) or by exact title, returning the first
      scenario in list order whose title matches. */
  method GetScenario(scenarios: seq<Scenario>, key: Key) returns (r: Result<Scenario, LookupError>)
    ensures r.Success? ==> r.value in scenarios
    ensures key.Index? ==> (r.Success? <==> -|scenarios| <= key.i < |scenarios|)
    ensures key.Index? && 0 <= key.i < |scenarios| ==> r == Success(scenarios[key.i])
    ensures key.Index? && -|scenarios| <= key.i < 0 ==> r == Success(scenarios[|scenarios| + key.i])
    ensures key.Index? && r.Failure? ==> r.error == IndexOutOfRange
    ensures key.Title? ==>
      (r.Success? <==> exists k :: 0 <= k < |scenarios| && scenarios[k].ruleTitle == key.title)
    ensures key.Title? && r.Success? ==>
      exists k :: 0 <= k < |scenarios| && scenarios[k] == r.value && scenarios[k].ruleTitle == key.title
        && forall j :: 0 <= j < k ==> scenarios[j].ruleTitle != key.title
    ensures key.Title? && r.Failure? ==> r.error == NoSuchTitle
  {
    match key
    case Index(i) =>
      if 0 <= i < |scenarios| {
        return Success(scenarios[i]);
      } else if -|scenarios| <= i < 0 {
        return Success(scenarios[|scenarios| + i]);
      }
      return Failure(IndexOutOfRange);
    case Title(title) =>
      var k := 0;
      while k < |scenarios|
        invariant 0 <= k <= |scenarios|
        invariant forall j :: 0 <= j < k ==> scenarios[j].ruleTitle != title
      {
        if scenarios[k].ruleTitle == title {
          return Success(scenarios[k]);
        }
        k := k + 1;
      }
      return Failure(NoSuchTitle);
  }
}

=== FILE: wrappers.dfy ===
/** Failure-compatible wrappers used for the source's exceptions and missing values. */
module Wrappers {

  /** A value that may be absent. */
  datatype Option<+T> = None | Some(value: T)

  /** A computation that either succeeds with a value or fails with an error. */
  datatype Result<+T, +E> = Success(value: T) | Failure(error: E)
}
